=== FILE: README.md ===
# py-gems core: multimethod dispatch and the `Timer` — a Dafny model

This project models two parts of the `pygems.core` package.

- **Multiple dispatch** (`src/pygems/core/functools.py`). A `MultiMethod` holds a table
  `typemap` from a tuple of exact argument classes to a function. `register` adds a new
  signature and raises `TypeError("duplicate registration")` when the signature is already
  present. Calling the multimethod forms the tuple of its arguments' classes, looks it up by
  exact equality and invokes the function found with the same arguments. A miss raises
  `TypeError("no match")`. `MultiMethodRegistry.register` keeps a name → `MultiMethod`
  directory keyed by the function's `__name__`. It creates an entry on the first
  registration under a name and reuses it afterwards. The `multimethod(*types)` decorator
  is a thin front end over it.
- **Timer** (`src/pygems/core/timer.py`, class `Timer`). The timer keeps `started_at` and
  `stopped_at` and reads the time from an injectable clock callback. `start`, `stop` and
  `elapsed` are transitions and queries over successive clock readings.

Modelling choices:

- Classes are integer type tags, so the set of classes stays open.
- A function is its `__name__` plus an identity.
- A call's outcome is the `Invocation` it performs: the function invoked and the arguments
  it was handed. The function's own result goes back to the caller untouched.
- A method that mutates its object and may raise is a `Step`: the object's state after the
  call together with the value returned or the exception raised.
- The class-level directory `_registry` is an explicit `Registry` value passed through
  every call.
- The object returned by the decorator is a `Dispatcher` naming its multimethod. Calling
  it reads the directory at call time, so calls through every returned object for a name
  see the same table. Registering directly through a returned object
  (`RegisterThrough`) writes into that shared table, whatever the new function's name.
- The timer's clock is a finite sequence of exact real readings stored in the timer. Each
  read of `time` consumes one reading. An exhausted clock raises `ClockExhausted`, standing
  for the exception a finite callback such as `list.pop` raises.
- `Stop` does not run the stop callback. It returns the `StopCall` it would make: the
  callback, the already-stopped timer and the stop arguments.

A registration through the decorator is always keyed by the implementation's `__name__`. The
code does not check `types`; in the model a signature is a sequence of type tags by construction.

Files:

- `wrappers.dfy`: `Option`, `Result`, `Step`.
- `multimethod.dfy`: module `MultiMethods`.
- `registry.dfy`: module `MultiMethodRegistry`, which includes the decorator.
- `timer.dfy`: module `Timers`.
- `functools_scenarios.dfy` and `timer_scenarios.dfy`: the doc examples and the unit-test
  scenarios replayed on the model.

## Model

| member | source | states |
|---|---|---|
| MultiMethods.Create | src/pygems/core/functools.py:15-17 | a new multimethod carries the given name and an empty table |
| MultiMethods.CreateThenRegister | src/pygems/core/functools.py:15-31 | the first registration into a fresh multimethod always succeeds and leaves exactly that binding, so calls hit exactly when their arguments fit it |
| MultiMethods.SignatureOf | src/pygems/core/functools.py:21 | the key has one entry per argument, and entry i is argument i's class |
| MultiMethods.MatchesExactly | src/pygems/core/functools.py:21-22 | a signature fits the arguments (same length, each position exactly the argument's class) if and only if it equals the lookup key built from them; there is no prefix or subtype matching |
| MultiMethods.Register | src/pygems/core/functools.py:27-31 | succeeds exactly when the signature is new; then the table gains exactly that binding and keeps every other one; a present signature raises "duplicate registration" and leaves the multimethod unchanged, whatever the new function |
| MultiMethods.Call | src/pygems/core/functools.py:19-25 | hits exactly when some registered signature fits the arguments, and then invokes that signature's function with the same arguments; otherwise raises "no match" and invokes nothing |
| MultiMethods.RegisterThenCall | src/pygems/core/functools.py:19-31 | after a successful registration, calls fitting the new signature invoke the new function and every other call answers as before |
| MultiMethods.DuplicateKeepsFirst | src/pygems/core/tests/test_functools.py:26-34 | registering a signature a second time raises "duplicate registration" and leaves the table as it was; the first function keeps answering calls |
| MultiMethods.RegistrationOrderIrrelevant | src/pygems/core/functools.py:27-31 | two distinct signatures give the same table in either registration order, and each dispatches to its own function |
| MultiMethods.EmptySignatureOnlyZeroArgs | src/pygems/core/tests/test_functools.py:37-43 | a table whose only signature is the empty one answers a call if and only if the call has no arguments |
| MultiMethodRegistry.Register | src/pygems/core/functools.py:41-50 | keys by the function's name; the first registration under a name creates a table holding just the new binding; a later one extends the existing table and keeps its entries; a conflict raises and leaves the directory unchanged; other names' tables are untouched; the name invariant is preserved |
| MultiMethodRegistry.CallDispatcher | src/pygems/core/functools.py:19-25 | a dispatcher hits exactly when its name's current table has a signature fitting the arguments, and then invokes that function with the same arguments; otherwise raises "no match" |
| MultiMethodRegistry.EmptyIsValid | src/pygems/core/functools.py:38 | the directory at process start stores every multimethod under its own name, trivially, since it is empty |
| MultiMethodRegistry.RegisterThrough | src/pygems/core/functools.py:27-31 | registering through a returned object succeeds exactly when the signature is new in the table under the object's name; it then adds that binding there and nothing else; a present signature raises "duplicate registration" and leaves the directory unchanged |
| MultiMethodRegistry.RegisterThroughThenDispatch | src/pygems/core/functools.py:47-50 | the returned object is the shared multimethod, so after registering through it, fitting calls reach the new function whatever its name; every other call answers as before |
| MultiMethodRegistry.Multimethod | src/pygems/core/functools.py:113-115 | applying the decorator to a function is exactly registering it with the decorator's types |
| MultiMethodRegistry.RegisterThenDispatch | src/pygems/core/functools.py:43-48 | after a successful registration, a dispatcher for that name routes calls fitting the new signature to the new function; every other call, under any name, answers as before |
| MultiMethodRegistry.EarlierDispatcherSeesLaterRegistration | src/pygems/core/functools.py:45-50 | the dispatcher returned by the first registration under a name also routes a signature registered later under that name, and still routes its own |
| MultiMethodRegistry.RegistrationIsMonotonic | src/pygems/core/functools.py:43-48 | a call that hits keeps hitting the same function after any further registration, successful or not |
| FunctoolsScenarios.DecoratorDocExample | src/pygems/core/functools.py:81-111 | the doc example: `int` and `str` versions register; a second `str` version raises "duplicate registration"; calls with an int and with a str reach their own versions; a call with a list raises "no match" |
| FunctoolsScenarios.IntAndStrVersions | src/pygems/core/tests/test_functools.py:19-24 | with `int` and `str` versions of one name, each returned dispatcher reaches the right version |
| FunctoolsScenarios.RepeatedEmptySignature | src/pygems/core/tests/test_functools.py:26-34 | registering the empty signature twice under one name raises "duplicate registration" |
| FunctoolsScenarios.EmptySignatureOnly | src/pygems/core/tests/test_functools.py:37-43 | a function registered for the empty signature answers a zero-argument call and misses a one-argument call |
| Timers.Time | src/pygems/core/timer.py:130 | yields exactly the next clock reading, consumes it and changes nothing else; an exhausted clock raises and changes nothing |
| Timers.Start | src/pygems/core/timer.py:181-182 | the start time becomes the current reading and the stop time is cleared; the name and the callback are unchanged |
| Timers.Create | src/pygems/core/timer.py:113-120 | the new timer is started: its start time is the first reading, it has no stop time, and it keeps its name and callback |
| Timers.CreateIsStart | src/pygems/core/timer.py:113-120 | construction equals `start()` applied to the stored name, clock and callback, whatever start and stop times preceded it; an exhausted clock makes both fail |
| Timers.RestartCancelsStop | src/pygems/core/timer.py:181-182 | a restart after a stop clears the stop time, so `elapsed` reads the clock again and measures from the restart reading |
| Timers.Elapsed | src/pygems/core/timer.py:151-153 | with a truthy stop time, it is stop minus start and reads no clock; otherwise it is the current reading minus start and consumes that reading |
| Timers.Stop | src/pygems/core/timer.py:217-219 | the stop time becomes the current reading, overwriting any earlier one; after that, and only when a callback is set, the callback is requested once with the stopped timer and the stop arguments |
| Timers.StoppedElapsedIsStable | src/pygems/core/timer.py:151-152 | any number of reads of `elapsed` on a stopped timer all give stop minus start and leave the timer unchanged |
| Timers.RunningElapsedReadsClock | src/pygems/core/timer.py:153 | on a running timer, read i of `elapsed` gives reading i minus start, and k reads consume k readings |
| Timers.StopThenElapsed | src/pygems/core/timer.py:151-152 | after a stop at a non-zero reading, `elapsed` is that reading minus start and consumes nothing |
| Timers.ZeroStopReadingCountsAsRunning | src/pygems/core/timer.py:151 | a stop reading of 0 is recorded but counts as "not stopped" for `elapsed`, which then reads the clock again |
| Timers.StopOverwrites | src/pygems/core/timer.py:217 | a second stop overwrites the stop time with the next reading and keeps the start time |
| TimerScenarios.CreatedTimerIsStarted | src/pygems/core/tests/test_timer.py:49-50 | with readings 1, 5, 9.5, 20.5 the new timer starts at 1 and is not stopped |
| TimerScenarios.RunningElapsedTwice | src/pygems/core/tests/test_timer.py:52-54 | two reads of `elapsed` on the unstopped timer give 4 and then 8.5 |
| TimerScenarios.StoppedElapsedTwice | src/pygems/core/tests/test_timer.py:56-59 | after a stop at 5, two reads of `elapsed` both give 4 |
| TimerScenarios.StopPassesArguments | src/pygems/core/tests/test_timer.py:61-63 | `stop('arg1', 'arg2')` requests the callback once, with the timer and both arguments |
| TimerScenarios.StopTwice | src/pygems/core/tests/test_timer.py:65-70 | two stops record 5 and then 9.5 |
| TimerScenarios.RestartClearsStop | src/pygems/core/timer.py:158-178 | readings 10, 20, 30: started at 10, stopped at 20, restarted at 30 with the stop time cleared |
| TimerScenarios.CallbackReadsElapsed | src/pygems/core/timer.py:210-215 | a callback reading `elapsed` off the timer it is handed sees 8.1234 after the first stop and 29.789 after the second |
| TimerScenarios.TimeGivesReading | src/pygems/core/timer.py:126-128 | a timer constructed over a clock that always reads 5 gives 5 from `time` |

## Left out

- `wraps(function)(mm)` (src/pygems/core/functools.py:49) copies the function's metadata attributes (`__module__`, `__name__`, `__qualname__`, `__doc__`, `__annotations__`, `__wrapped__`) onto the shared multimethod and merges the function's `__dict__` into it, so a function attribute named `typemap` or `name` would overwrite the multimethod's own. None of this is modelled.
- Python reflection (`arg.__class__`, `function.__name__`) is replaced by explicit type tags and explicit names.
- MultiMethods.Call: a `None` implementation is not modelled. `MultiMethod.register(types, None)` is accepted by the code (src/pygems/core/functools.py:27-31). A later call with those types then raises "no match", because the lookup tests `is None` (src/pygems/core/functools.py:22-24), while registering the types again still raises "duplicate registration". In the model every registered implementation is a real function, so a present signature always hits. The decorator never registers `None`.
- Running the implementations is not modelled. A call returns the `Invocation` it performs rather than the function's result.
- The process-wide class attribute `_registry` is an explicit value. A fresh process corresponds to `MultiMethodRegistry.Empty`.
- Any unhashable `types` is not modelled: a list passed to `MultiMethodRegistry.register`, or a decorator argument that is itself unhashable such as `multimethod([int])`. The code raises `TypeError` at src/pygems/core/functools.py:29 after storing a fresh empty `MultiMethod` under the name (src/pygems/core/functools.py:47), so that failed registration does change the directory. In the model a signature is a sequence of integer tags and always hashable, so `MultiMethodRegistry.Register` fails only on a true conflict.
- Concurrency and locking are not modelled. The code is single-threaded.
- `Timer`'s callability assertions (src/pygems/core/timer.py:114-118) are runtime type checks on callbacks and are not modelled.
- The constructor replaces any falsy `time_func` by `timeit.default_timer` (src/pygems/core/timer.py:116). The model has no default clock: it always takes an explicit finite sequence of readings.
- Float arithmetic in `elapsed` is replaced by exact reals.
- Timers.Stop: the model returns the callback request but does not run the callback. Anything the callback does to the timer afterwards is not modelled, for example reading `elapsed` when the stop reading was 0 and so consuming a further reading.
- `StringMessageCallback` (src/pygems/core/timer.py:4-33) is string formatting and printing. Its tests (src/pygems/core/tests/test_timer.py:74-86) rely on an `arg_separator` attribute that the code does not have.
- Three `Timer` tests read a `time_func` attribute that the code does not have (the clock is stored as `_time_func`): src/pygems/core/tests/test_timer.py:23-26, 28-34 and 36-39. They are not replayed.
- `on_exit` in src/pygems/core/contextlib.py is a `getattr`-based resource closer and is not part of this model.
- The documentation scripts are not part of this model: entry-point listing, the deep-attribute accessor and the pytest marker configuration.
- The `shortcuts` module exercised by src/pygems/core/tests/test_shortcuts.py is not part of this model.

=== FILE: functools_scenarios.dfy ===
/** The documented and tested uses of the `multimethod` decorator, replayed
    on the model from an empty directory. */
module FunctoolsScenarios {
  import opened Wrappers
  import opened MultiMethods
  import opened MultiMethodRegistry

  const IntClass: TypeTag := 0
  const StrClass: TypeTag := 1
  const ListClass: TypeTag := 2

  /** The decorator's doc example: `myfunc` for `int`, then for `str`; a
      second `str` version raises; `myfunc(12)` and `myfunc('Ivan')` reach
      their own versions; `myfunc([])` raises "no match". */
  lemma DecoratorDocExample(forInt: Function, forStr: Function, again: Function, twelve: Value, ivan: Value, empty: Value)
    requires forInt.name == "myfunc" && forStr.name == "myfunc" && again.name == "myfunc"
    requires twelve.cls == IntClass && ivan.cls == StrClass && empty.cls == ListClass
    ensures Multimethod([IntClass])(Empty, forInt).result == Success(Dispatcher("myfunc"))
    ensures Multimethod([StrClass])(Multimethod([IntClass])(Empty, forInt).state, forStr).result.Success?
    ensures
      var reg := Multimethod([StrClass])(Multimethod([IntClass])(Empty, forInt).state, forStr).state;
      && Multimethod([StrClass])(reg, again) == Step(reg, Failure(TypeError("duplicate registration")))
      && CallDispatcher(reg, Dispatcher("myfunc"), [twelve]) == Success(Invocation(forInt, [twelve]))
      && CallDispatcher(reg, Dispatcher("myfunc"), [ivan]) == Success(Invocation(forStr, [ivan]))
      && CallDispatcher(reg, Dispatcher("myfunc"), [empty]) == Failure(TypeError("no match"))
  {
    var reg1 := MultiMethodRegistry.Register(Empty, [IntClass], forInt).state;
    var reg := MultiMethodRegistry.Register(reg1, [StrClass], forStr).state;
    assert Matches([IntClass], [twelve]) && Matches([StrClass], [ivan]);
    RegisterThenDispatch(Empty, [IntClass], forInt, Dispatcher("myfunc"), [twelve]);
    RegisterThenDispatch(reg1, [StrClass], forStr, Dispatcher("myfunc"), [twelve]);
    RegisterThenDispatch(reg1, [StrClass], forStr, Dispatcher("myfunc"), [ivan]);
    assert !Matches([IntClass], [empty]) && !Matches([StrClass], [empty]);
    RegisterThenDispatch(Empty, [IntClass], forInt, Dispatcher("myfunc"), [empty]);
    RegisterThenDispatch(reg1, [StrClass], forStr, Dispatcher("myfunc"), [empty]);
  }

  /** Two versions of `myfunc` registered for `int` and `str`: each returned
      dispatcher routes both kinds of call. */
  lemma IntAndStrVersions(forInt: Function, forStr: Function, one: Value, text: Value)
    requires forInt.name == "myfunc" && forStr.name == "myfunc"
    requires one.cls == IntClass && text.cls == StrClass
    ensures
      var first := Multimethod([IntClass])(Empty, forInt);
      var second := Multimethod([StrClass])(first.state, forStr);
      && first.result.Success? && second.result.Success?
      && CallDispatcher(second.state, first.result.value, [one]) == Success(Invocation(forInt, [one]))
      && CallDispatcher(second.state, second.result.value, [text]) == Success(Invocation(forStr, [text]))
  {
    EarlierDispatcherSeesLaterRegistration(Empty, [IntClass], forInt, [StrClass], forStr, [one], [text]);
    var first := MultiMethodRegistry.Register(Empty, [IntClass], forInt);
    assert Matches([StrClass], [text]);
    RegisterThenDispatch(first.state, [StrClass], forStr, Dispatcher("myfunc"), [text]);
  }

  /** Registering the empty signature twice under one name raises. */
  lemma RepeatedEmptySignature(f: Function, g: Function)
    requires f.name == "repeated_function" && g.name == "repeated_function"
    ensures Multimethod([])(Multimethod([])(Empty, f).state, g).result == Failure(DuplicateRegistration)
  {
  }

  /** A function registered only for the empty signature answers a
      zero-argument call and misses a call with one argument. */
  lemma EmptySignatureOnly(f: Function, arg: Value)
    requires f.name == "empty_signature_only"
    ensures
      var step := Multimethod([])(Empty, f);
      && CallDispatcher(step.state, step.result.value, []) == Success(Invocation(f, []))
      && CallDispatcher(step.state, step.result.value, [arg]) == Failure(NoMatch)
  {
    var step := MultiMethodRegistry.Register(Empty, [], f);
    EmptySignatureOnlyZeroArgs(step.state.tables[f.name], [arg]);
    assert Matches([], []);
  }
}

=== FILE: multimethod.dfy ===
/** One multimethod: a table from exact argument-class tuples to the
    functions registered for them (class `MultiMethod` of
    src/pygems/core/functools.py). */
module MultiMethods {
  import opened Wrappers

  /** Identity of a class. The set of classes is open: every int names one. */
  type TypeTag = int

  type Name = string

  /** The tuple of classes a call is keyed by, one per positional argument. */
  type Signature = seq<TypeTag>

  /** A call argument: the class it is an instance of and its object identity. */
  datatype Value = Value(cls: TypeTag, ident: int)

  /** A Python function as the registry sees it: its `__name__` and its identity. */
  datatype Function = Function(name: Name, ident: int)

  /** What a successful call did: the function it invoked and the arguments
      it passed on. The function's own result is returned to the caller as is. */
  datatype Invocation = Invocation(fn: Function, args: seq<Value>)

  datatype Error = TypeError(message: string)

  const DuplicateRegistration: Error := TypeError("duplicate registration")
  const NoMatch: Error := TypeError("no match")

  datatype MultiMethod = MultiMethod(name: Name, typemap: map<Signature, Function>)

  /** A freshly constructed multimethod: named, with an empty table. */
  function Create(name: Name): (mm: MultiMethod)
    ensures mm.name == name && mm.typemap == map[]
  {
    MultiMethod(name, map[])
  }

  /** The tuple of the arguments' classes, in argument order. */
  function SignatureOf(args: seq<Value>): (s: Signature)
    ensures |s| == |args|
    ensures forall i :: 0 <= i < |args| ==> s[i] == args[i].cls
  {
    if |args| == 0 then [] else [args[0].cls] + SignatureOf(args[1..])
  }

  /** Reference meaning of "the arguments fit the signature": same length,
      and each argument is an instance of exactly the class at its position. */
  predicate Matches(types: Signature, args: seq<Value>)
  {
    && |types| == |args|
    && forall i :: 0 <= i < |args| ==> types[i] == args[i].cls
  }

  /** Matching is exact on the whole tuple: the only signature the arguments
      fit is the tuple of their own classes. */
  lemma MatchesExactly(types: Signature, args: seq<Value>)
    ensures Matches(types, args) <==> types == SignatureOf(args)
  {
    if Matches(types, args) {
      assert forall i :: 0 <= i < |types| ==> types[i] == SignatureOf(args)[i];
    }
  }

  /** Registering a signature: a new signature is added with exactly that
      binding; a signature already present raises and leaves the table as it was. */
  function Register(mm: MultiMethod, types: Signature, fn: Function): (r: Step<MultiMethod, (), Error>)
    ensures r.state.name == mm.name
    ensures r.result.Success? <==> types !in mm.typemap
    ensures r.result.Failure? ==> r.result.error == DuplicateRegistration && r.state == mm
    ensures r.result.Success? ==>
      && r.state.typemap.Keys == mm.typemap.Keys + {types}
      && r.state.typemap[types] == fn
    ensures forall s :: s in mm.typemap ==> s in r.state.typemap && r.state.typemap[s] == mm.typemap[s]
  {
    if types in mm.typemap then
      Step(mm, Failure(DuplicateRegistration))
    else
      Step(mm.(typemap := mm.typemap[types := fn]), Success(()))
  }

  /** Calling the multimethod: it hits exactly when some registered signature
      matches the arguments, and then invokes that signature's function with
      the arguments unchanged; otherwise it raises "no match" and invokes nothing. */
  function Call(mm: MultiMethod, args: seq<Value>): (r: Result<Invocation, Error>)
    ensures r.Success? <==> exists s :: s in mm.typemap && Matches(s, args)
    ensures forall s :: s in mm.typemap && Matches(s, args) ==> r == Success(Invocation(mm.typemap[s], args))
    ensures r.Failure? ==> r.error == NoMatch
  {
    var types := SignatureOf(args);
    MatchesExactly(types, args);
    assert forall s :: Matches(s, args) ==> s == types by {
      forall s | Matches(s, args) { MatchesExactly(s, args); }
    }
    if types in mm.typemap then
      Success(Invocation(mm.typemap[types], args))
    else
      Failure(NoMatch)
  }

  /** After a successful registration, calls whose classes fit the new
      signature invoke the new function; every other call behaves exactly as
      it did before. */
  lemma RegisterThenCall(mm: MultiMethod, types: Signature, fn: Function, args: seq<Value>)
    requires types !in mm.typemap
    ensures Matches(types, args) ==> Call(Register(mm, types, fn).state, args) == Success(Invocation(fn, args))
    ensures !Matches(types, args) ==> Call(Register(mm, types, fn).state, args) == Call(mm, args)
  {
    var mm' := Register(mm, types, fn).state;
    var sig := SignatureOf(args);
    MatchesExactly(sig, args);
    MatchesExactly(types, args);
    if !Matches(types, args) {
      assert sig in mm'.typemap <==> sig in mm.typemap;
      if sig in mm.typemap {
        assert mm'.typemap[sig] == mm.typemap[sig];
      }
    }
  }

  /** A second registration of the same signature raises, whatever function
      it brings, and the first binding keeps answering calls. */
  lemma DuplicateKeepsFirst(mm: MultiMethod, types: Signature, first: Function, second: Function, args: seq<Value>)
    requires types !in mm.typemap
    requires Matches(types, args)
    ensures Register(Register(mm, types, first).state, types, second).result == Failure(DuplicateRegistration)
    ensures Register(Register(mm, types, first).state, types, second).state == Register(mm, types, first).state
    ensures Call(Register(mm, types, first).state, args) == Success(Invocation(first, args))
  {
    RegisterThenCall(mm, types, first, args);
  }

  /** Two distinct signatures can be registered in either order with the
      same resulting table, and each dispatches to its own function. */
  lemma RegistrationOrderIrrelevant(mm: MultiMethod, s1: Signature, f1: Function, s2: Signature, f2: Function)
    requires s1 != s2 && s1 !in mm.typemap && s2 !in mm.typemap
    ensures Register(Register(mm, s1, f1).state, s2, f2).result.Success?
    ensures Register(Register(mm, s2, f2).state, s1, f1).result.Success?
    ensures Register(Register(mm, s1, f1).state, s2, f2).state == Register(Register(mm, s2, f2).state, s1, f1).state
    ensures forall args :: Matches(s1, args) ==>
      Call(Register(Register(mm, s1, f1).state, s2, f2).state, args) == Success(Invocation(f1, args))
    ensures forall args :: Matches(s2, args) ==>
      Call(Register(Register(mm, s1, f1).state, s2, f2).state, args) == Success(Invocation(f2, args))
  {
    var a := Register(Register(mm, s1, f1).state, s2, f2).state;
    var b := Register(Register(mm, s2, f2).state, s1, f1).state;
    assert a.typemap == b.typemap;
  }

  /** A multimethod whose only signature is the empty one answers
      zero-argument calls and misses every call that passes an argument. */
  lemma EmptySignatureOnlyZeroArgs(mm: MultiMethod, args: seq<Value>)
    requires mm.typemap.Keys == {[]}
    ensures Call(mm, args).Success? <==> |args| == 0
  {
    if |args| == 0 {
      assert [] in mm.typemap && Matches([], args);
    }
  }

  /** The first registration into a fresh multimethod always succeeds and
      leaves it with that one binding, so calls hit exactly when the
      arguments fit the registered signature. */
  lemma CreateThenRegister(name: Name, types: Signature, fn: Function, args: seq<Value>)
    ensures Register(Create(name), types, fn) == Step(MultiMethod(name, map[types := fn]), Success(()))
    ensures Call(Register(Create(name), types, fn).state, args).Success? <==> Matches(types, args)
  {
    RegisterThenCall(Create(name), types, fn, args);
  }
}

=== FILE: registry.dfy ===
/** The name-to-multimethod directory and the `multimethod` decorator
    (class `MultiMethodRegistry` and function `multimethod` of
    src/pygems/core/functools.py). The class-level dictionary is an explicit
    `Registry` value threaded through every call. */
module MultiMethodRegistry {
  import opened Wrappers
  import opened MultiMethods

  datatype Registry = Registry(tables: map<Name, MultiMethod>)

  /** The directory at process start. */
  const Empty: Registry := Registry(map[])

  /** Every multimethod is stored under its own name. */
  predicate Valid(reg: Registry)
  {
    forall n :: n in reg.tables ==> reg.tables[n].name == n
  }

  /** The invariant holds at process start. */
  lemma EmptyIsValid()
    ensures Valid(Empty)
  {
  }

  /** What the decorator hands back: a handle on the multimethod registered
      under `name`. Calling it consults the directory as it is at call time,
      so every handle for a name sees the same, growing table. */
  datatype Dispatcher = Dispatcher(name: Name)

  /** The multimethod stored under `name`, or the fresh one that a first
      registration would create. */
  function Table(reg: Registry, name: Name): MultiMethod
  {
    if name in reg.tables then reg.tables[name] else Create(name)
  }

  /** Registers `fn` under its own `__name__`: the first registration under a
      name creates an empty multimethod, later ones reuse it. A duplicate
      signature raises and leaves the directory as it was; tables under other
      names are never touched. */
  function Register(reg: Registry, types: Signature, fn: Function): (r: Step<Registry, Dispatcher, Error>)
    ensures r.result.Success? <==> !(fn.name in reg.tables && types in reg.tables[fn.name].typemap)
    ensures r.result.Failure? ==> r.result.error == DuplicateRegistration && r.state == reg
    ensures r.result.Success? ==>
      && r.result.value == Dispatcher(fn.name)
      && r.state.tables.Keys == reg.tables.Keys + {fn.name}
      && r.state.tables[fn.name].typemap.Keys == Table(reg, fn.name).typemap.Keys + {types}
      && r.state.tables[fn.name].typemap[types] == fn
    ensures fn.name !in reg.tables ==> r.state.tables[fn.name] == MultiMethod(fn.name, map[types := fn])
    ensures forall n :: n in reg.tables && n != fn.name ==> n in r.state.tables && r.state.tables[n] == reg.tables[n]
    ensures forall s :: s in Table(reg, fn.name).typemap ==>
      fn.name in r.state.tables && s in r.state.tables[fn.name].typemap
      && r.state.tables[fn.name].typemap[s] == Table(reg, fn.name).typemap[s]
    ensures Valid(reg) ==> Valid(r.state)
  {
    var name := fn.name;
    var mm := Table(reg, name);
    var step := MultiMethods.Register(mm, types, fn);
    // The fresh multimethod is stored before registering into it, so the
    // directory is written back on failure too.
    var tables := reg.tables[name := step.state];
    assert step.result.Failure? ==> tables == reg.tables;
    match step.result
    case Success(_) => Step(Registry(tables), Success(Dispatcher(name)))
    case Failure(e) => Step(Registry(tables), Failure(e))
  }

  /** Calling a dispatcher: routes through the current table for its name. */
  function CallDispatcher(reg: Registry, d: Dispatcher, args: seq<Value>): (r: Result<Invocation, Error>)
    ensures r.Success? <==> d.name in reg.tables && exists s :: s in reg.tables[d.name].typemap && Matches(s, args)
    ensures d.name in reg.tables ==> forall s :: s in reg.tables[d.name].typemap && Matches(s, args) ==>
      r == Success(Invocation(reg.tables[d.name].typemap[s], args))
    ensures r.Failure? ==> r.error == NoMatch
  {
    Call(Table(reg, d.name), args)
  }

  /** Registering directly through a returned object: it is the shared
      multimethod itself, so `register` writes into the table stored under
      the dispatcher's name, whatever the new function's own name is. */
  function RegisterThrough(reg: Registry, d: Dispatcher, types: Signature, fn: Function): (r: Step<Registry, (), Error>)
    ensures r.result.Success? <==> !(d.name in reg.tables && types in reg.tables[d.name].typemap)
    ensures r.result.Failure? ==> r.result.error == DuplicateRegistration && r.state == reg
    ensures r.result.Success? ==>
      && r.state.tables.Keys == reg.tables.Keys + {d.name}
      && r.state.tables[d.name].typemap.Keys == Table(reg, d.name).typemap.Keys + {types}
      && r.state.tables[d.name].typemap[types] == fn
    ensures forall n :: n in reg.tables && n != d.name ==> n in r.state.tables && r.state.tables[n] == reg.tables[n]
    ensures Valid(reg) ==> Valid(r.state)
  {
    var step := MultiMethods.Register(Table(reg, d.name), types, fn);
    var tables := reg.tables[d.name := step.state];
    assert step.result.Failure? ==> tables == reg.tables;
    Step(Registry(tables), step.result)
  }

  /** The decorator `multimethod(*types)`: applying it to a function is
      exactly registering that function with `types`. */
  function Multimethod(types: Signature): (decorate: (Registry, Function) -> Step<Registry, Dispatcher, Error>)
    ensures forall reg, fn :: decorate(reg, fn) == Register(reg, types, fn)
  {
    (reg, fn) => Register(reg, types, fn)
  }

  /** After a successful registration, a dispatcher for the registered name
      routes calls fitting the new signature to the new function; every
      other call, under any name, is answered exactly as before. */
  lemma RegisterThenDispatch(reg: Registry, types: Signature, fn: Function, d: Dispatcher, args: seq<Value>)
    requires Register(reg, types, fn).result.Success?
    ensures d.name == fn.name && Matches(types, args) ==>
      CallDispatcher(Register(reg, types, fn).state, d, args) == Success(Invocation(fn, args))
    ensures !(d.name == fn.name && Matches(types, args)) ==>
      CallDispatcher(Register(reg, types, fn).state, d, args) == CallDispatcher(reg, d, args)
  {
    var reg' := Register(reg, types, fn).state;
    if d.name == fn.name {
      assert reg'.tables[fn.name] == MultiMethods.Register(Table(reg, fn.name), types, fn).state;
      RegisterThenCall(Table(reg, fn.name), types, fn, args);
    } else {
      assert Table(reg', d.name) == Table(reg, d.name);
    }
  }

  /** The dispatcher returned by an earlier registration sees signatures
      registered later under the same name, and keeps the earlier ones. */
  lemma EarlierDispatcherSeesLaterRegistration(
    reg: Registry, s1: Signature, f1: Function, s2: Signature, f2: Function, args1: seq<Value>, args2: seq<Value>)
    requires f1.name == f2.name && s1 != s2
    requires Register(reg, s1, f1).result.Success?
    requires Matches(s1, args1) && Matches(s2, args2)
    requires s2 !in Table(reg, f1.name).typemap
    ensures Register(Register(reg, s1, f1).state, s2, f2).result.Success?
    ensures CallDispatcher(Register(Register(reg, s1, f1).state, s2, f2).state, Register(reg, s1, f1).result.value, args1)
      == Success(Invocation(f1, args1))
    ensures CallDispatcher(Register(Register(reg, s1, f1).state, s2, f2).state, Register(reg, s1, f1).result.value, args2)
      == Success(Invocation(f2, args2))
  {
    var step1 := Register(reg, s1, f1);
    var d := step1.result.value;
    assert s2 !in step1.state.tables[f2.name].typemap;
    RegisterThenDispatch(reg, s1, f1, d, args1);
    RegisterThenDispatch(step1.state, s2, f2, d, args1);
    RegisterThenDispatch(step1.state, s2, f2, d, args2);
  }

  /** Registrations never take anything away: a call that hits keeps hitting
      the same function after any further registration, failed or not. */
  lemma RegistrationIsMonotonic(reg: Registry, types: Signature, fn: Function, d: Dispatcher, args: seq<Value>)
    requires CallDispatcher(reg, d, args).Success?
    ensures CallDispatcher(Register(reg, types, fn).state, d, args) == CallDispatcher(reg, d, args)
  {
    if Register(reg, types, fn).result.Success? {
      RegisterThenDispatch(reg, types, fn, d, args);
    }
  }

  /** After registering through a dispatcher, calls through it that fit the
      new signature reach the new function even when that function carries
      another name; every other call, under any name, answers as before. */
  lemma RegisterThroughThenDispatch(reg: Registry, d: Dispatcher, types: Signature, fn: Function, e: Dispatcher, args: seq<Value>)
    requires RegisterThrough(reg, d, types, fn).result.Success?
    ensures e.name == d.name && Matches(types, args) ==>
      CallDispatcher(RegisterThrough(reg, d, types, fn).state, e, args) == Success(Invocation(fn, args))
    ensures !(e.name == d.name && Matches(types, args)) ==>
      CallDispatcher(RegisterThrough(reg, d, types, fn).state, e, args) == CallDispatcher(reg, e, args)
  {
    var reg' := RegisterThrough(reg, d, types, fn).state;
    if e.name == d.name {
      assert reg'.tables[d.name] == MultiMethods.Register(Table(reg, d.name), types, fn).state;
      RegisterThenCall(Table(reg, d.name), types, fn, args);
    } else {
      assert Table(reg', e.name) == Table(reg, e.name);
    }
  }
}

=== FILE: timer.dfy ===
/** The `Timer` class of src/pygems/core/timer.py. The clock callback is a
    finite sequence of readings stored in the timer; each read of the `time`
    property consumes the first one. Readings are exact reals. */
module Timers {
  import opened Wrappers

  /** Identity of the stop callback. */
  type CallbackId = int

  /** A positional argument passed through `stop(*args)`. */
  type StopArg = string

  /** The clock callback had no further reading to give. */
  datatype Error = ClockExhausted

  datatype Timer = Timer(
    name: Option<string>,
    clock: seq<real>,
    stopFunc: Option<CallbackId>,
    startedAt: real,
    stoppedAt: Option<real>)

  /** A request to run the stop callback with the timer and the stop arguments. */
  datatype StopCall = StopCall(callback: CallbackId, timer: Timer, args: seq<StopArg>)

  /** Python truthiness of an optional number: `None` and `0` are false. */
  predicate Truthy(x: Option<real>)
  {
    x.Some? && x.value != 0.0
  }

  /** The `time` property: yields the next clock reading and has no other
      effect on the timer. */
  function Time(t: Timer): (r: Step<Timer, real, Error>)
    ensures r.result.Success? <==> |t.clock| > 0
    ensures r.result.Success? ==> [r.result.value] + r.state.clock == t.clock
    ensures r.result.Failure? ==> r.state == t
    ensures r.state.(clock := t.clock) == t
  {
    if |t.clock| == 0 then Step(t, Failure(ClockExhausted))
    else Step(t.(clock := t.clock[1..]), Success(t.clock[0]))
  }

  /** `start()`: the start time becomes the current reading and the stop
      time is cleared; nothing else changes. */
  function Start(t: Timer): (r: Step<Timer, (), Error>)
    ensures r.result.Success? <==> |t.clock| > 0
    ensures r.result.Failure? ==> r.state == t
    ensures r.result.Success? ==>
      && r.state.startedAt == t.clock[0]
      && r.state.stoppedAt == None
      && r.state.clock == t.clock[1..]
      && r.state.name == t.name
      && r.state.stopFunc == t.stopFunc
  {
    var now := Time(t);
    match now.result
    case Failure(e) => Step(now.state, Failure(e))
    case Success(v) => Step(now.state.(startedAt := v, stoppedAt := None), Success(()))
  }

  /** The constructor stores its arguments and then starts the timer. The
      start and stop times have no value before `start()` assigns them, so
      the placeholders given here are overwritten. */
  function Create(name: Option<string>, clock: seq<real>, stopFunc: Option<CallbackId>): (r: Result<Timer, Error>)
    ensures r.Success? <==> |clock| > 0
    ensures r.Success? ==>
      && r.value.startedAt == clock[0]
      && r.value.stoppedAt == None
      && r.value.clock == clock[1..]
      && r.value.name == name
      && r.value.stopFunc == stopFunc
  {
    var started := Start(Timer(name, clock, stopFunc, 0.0, None));
    match started.result
    case Failure(e) => Failure(e)
    case Success(_) => Success(started.state)
  }

  /** The `elapsed` property. A truthy stop time gives stop minus start and
      reads no clock; otherwise (no stop time, or a stop time of 0) it is the
      current reading minus start, consuming that reading. */
  function Elapsed(t: Timer): (r: Step<Timer, real, Error>)
    ensures Truthy(t.stoppedAt) ==> r == Step(t, Success(t.stoppedAt.value - t.startedAt))
    ensures !Truthy(t.stoppedAt) ==> (r.result.Success? <==> |t.clock| > 0)
    ensures !Truthy(t.stoppedAt) && r.result.Success? ==>
      r.result.value == t.clock[0] - t.startedAt && r.state == t.(clock := t.clock[1..])
    ensures r.result.Failure? ==> r.state == t
  {
    if Truthy(t.stoppedAt) then
      Step(t, Success(t.stoppedAt.value - t.startedAt))
    else
      var now := Time(t);
      match now.result
      case Failure(e) => Step(now.state, Failure(e))
      case Success(v) => Step(now.state, Success(v - t.startedAt))
  }

  /** `stop(*args)`: the stop time becomes the current reading, overwriting
      any earlier one. Only after that, and only when a stop callback is set,
      is the callback requested once, with the stopped timer and the arguments. */
  function Stop(t: Timer, args: seq<StopArg>): (r: Step<Timer, Option<StopCall>, Error>)
    ensures r.result.Success? <==> |t.clock| > 0
    ensures r.result.Failure? ==> r.state == t
    ensures r.result.Success? ==>
      && r.state == t.(clock := t.clock[1..], stoppedAt := Some(t.clock[0]))
      && (r.result.value.Some? <==> t.stopFunc.Some?)
      && (t.stopFunc.Some? ==> r.result.value.value == StopCall(t.stopFunc.value, r.state, args))
  {
    var now := Time(t);
    match now.result
    case Failure(e) => Step(now.state, Failure(e))
    case Success(v) =>
      var stopped := now.state.(stoppedAt := Some(v));
      var call := if t.stopFunc.Some? then Some(StopCall(t.stopFunc.value, stopped, args)) else None;
      Step(stopped, Success(call))
  }

  /** `k` successive reads of `elapsed`, with the values they returned. */
  function ReadElapsed(t: Timer, k: nat): Step<Timer, seq<real>, Error>
    decreases k
  {
    if k == 0 then Step(t, Success([]))
    else
      var first := Elapsed(t);
      match first.result
      case Failure(e) => Step(first.state, Failure(e))
      case Success(v) =>
        var rest := ReadElapsed(first.state, k - 1);
        match rest.result
        case Failure(e) => Step(rest.state, Failure(e))
        case Success(vs) => Step(rest.state, Success([v] + vs))
  }

  /** A stopped timer answers every read of `elapsed` with stop minus start
      and reads no clock, however often it is asked. */
  lemma {:induction false} StoppedElapsedIsStable(t: Timer, k: nat)
    requires Truthy(t.stoppedAt)
    decreases k
    ensures ReadElapsed(t, k).state == t
    ensures ReadElapsed(t, k).result.Success?
    ensures |ReadElapsed(t, k).result.value| == k
    ensures forall i :: 0 <= i < k ==> ReadElapsed(t, k).result.value[i] == t.stoppedAt.value - t.startedAt
  {
    if k > 0 {
      StoppedElapsedIsStable(t, k - 1);
    }
  }

  /** A running timer (or one whose stop time is 0) answers the i-th read of
      `elapsed` with the i-th clock reading minus start, consuming one
      reading per read. */
  lemma {:induction false} RunningElapsedReadsClock(t: Timer, k: nat)
    requires !Truthy(t.stoppedAt) && k <= |t.clock|
    decreases k
    ensures ReadElapsed(t, k).state == t.(clock := t.clock[k..])
    ensures ReadElapsed(t, k).result.Success?
    ensures |ReadElapsed(t, k).result.value| == k
    ensures forall i :: 0 <= i < k ==> ReadElapsed(t, k).result.value[i] == t.clock[i] - t.startedAt
  {
    if k > 0 {
      var t' := t.(clock := t.clock[1..]);
      RunningElapsedReadsClock(t', k - 1);
      assert t'.clock[k - 1..] == t.clock[k..];
      var vs := ReadElapsed(t', k - 1).result.value;
      forall i | 0 <= i < k
        ensures ReadElapsed(t, k).result.value[i] == t.clock[i] - t.startedAt
      {
        if i > 0 {
          assert ReadElapsed(t, k).result.value[i] == vs[i - 1];
        }
      }
    }
  }

  /** Once stopped at a non-zero reading, `elapsed` is that reading minus
      the start time and consumes nothing. */
  lemma StopThenElapsed(t: Timer, args: seq<StopArg>)
    requires |t.clock| > 0 && t.clock[0] != 0.0
    ensures Elapsed(Stop(t, args).state) == Step(Stop(t, args).state, Success(t.clock[0] - t.startedAt))
  {
  }

  /** `elapsed` tests the stop time by truthiness: a stop reading of 0 is
      taken for "not stopped", so `elapsed` reads the clock again. */
  lemma ZeroStopReadingCountsAsRunning(t: Timer, args: seq<StopArg>)
    requires |t.clock| > 1 && t.clock[0] == 0.0
    ensures Stop(t, args).state.stoppedAt == Some(0.0)
    ensures Elapsed(Stop(t, args).state).result == Success(t.clock[1] - t.startedAt)
    ensures Elapsed(Stop(t, args).state).state.clock == t.clock[2..]
  {
  }

  /** Each `stop()` overwrites the stop time with the next reading. */
  lemma StopOverwrites(t: Timer, a1: seq<StopArg>, a2: seq<StopArg>)
    requires |t.clock| > 1
    ensures Stop(Stop(t, a1).state, a2).state.stoppedAt == Some(t.clock[1])
    ensures Stop(Stop(t, a1).state, a2).state.startedAt == t.startedAt
  {
  }

  /** Construction is `start()` on the stored fields: the placeholder start
      and stop times play no part in the constructed timer. */
  lemma CreateIsStart(name: Option<string>, clock: seq<real>, stopFunc: Option<CallbackId>, s: real, p: Option<real>)
    ensures |clock| > 0 ==> Create(name, clock, stopFunc) == Success(Start(Timer(name, clock, stopFunc, s, p)).state)
    ensures |clock| == 0 ==> Create(name, clock, stopFunc).Failure? && Start(Timer(name, clock, stopFunc, s, p)).result.Failure?
  {
  }

  /** A restart after a stop cancels the stop: the stop time is cleared and
      `elapsed` reads the clock again, measuring from the restart reading. */
  lemma RestartCancelsStop(t: Timer, a: seq<StopArg>)
    requires |t.clock| > 2
    ensures Start(Stop(t, a).state).result.Success?
    ensures Start(Stop(t, a).state).state.stoppedAt == None
    ensures Elapsed(Start(Stop(t, a).state).state).result == Success(t.clock[2] - t.clock[1])
    ensures Elapsed(Start(Stop(t, a).state).state).state.clock == t.clock[3..]
  {
  }
}

=== FILE: timer_scenarios.dfy ===
/** The documented and tested uses of `Timer`, replayed on the model with
    the clock readings the examples feed it. */
module TimerScenarios {
  import opened Wrappers
  import opened Timers

  /** The test fixture: readings 1, 5, 9.5, 20.5 and a stop callback. */
  function Fixture(cb: CallbackId): Timer
    requires Create(Some("TheTimer"), [1.0, 5.0, 9.5, 20.5], Some(cb)).Success?
  {
    Create(Some("TheTimer"), [1.0, 5.0, 9.5, 20.5], Some(cb)).value
  }

  /** A new timer is started at the first reading and is not stopped. */
  lemma CreatedTimerIsStarted(cb: CallbackId)
    ensures Create(Some("TheTimer"), [1.0, 5.0, 9.5, 20.5], Some(cb)).Success?
    ensures Fixture(cb).startedAt == 1.0 && Fixture(cb).stoppedAt == None
  {
  }

  /** Unstopped, two reads of `elapsed` give 4 and then 8.5. */
  lemma RunningElapsedTwice(cb: CallbackId)
    ensures Create(Some("TheTimer"), [1.0, 5.0, 9.5, 20.5], Some(cb)).Success?
    ensures ReadElapsed(Fixture(cb), 2).result == Success([4.0, 8.5])
  {
    RunningElapsedReadsClock(Fixture(cb), 2);
    var vs := ReadElapsed(Fixture(cb), 2).result.value;
    assert vs[0] == 4.0 && vs[1] == 8.5;
    assert vs == [4.0, 8.5];
  }

  /** Stopped, the stop time is 5 and two reads of `elapsed` both give 4. */
  lemma StoppedElapsedTwice(cb: CallbackId)
    ensures Create(Some("TheTimer"), [1.0, 5.0, 9.5, 20.5], Some(cb)).Success?
    ensures Stop(Fixture(cb), []).state.stoppedAt == Some(5.0)
    ensures ReadElapsed(Stop(Fixture(cb), []).state, 2).result == Success([4.0, 4.0])
  {
    StoppedElapsedIsStable(Stop(Fixture(cb), []).state, 2);
    var vs := ReadElapsed(Stop(Fixture(cb), []).state, 2).result.value;
    assert vs[0] == 4.0 && vs[1] == 4.0;
    assert vs == [4.0, 4.0];
  }

  /** `stop('arg1', 'arg2')` requests the callback once, with the timer and
      both arguments. */
  lemma StopPassesArguments(cb: CallbackId)
    ensures Create(Some("TheTimer"), [1.0, 5.0, 9.5, 20.5], Some(cb)).Success?
    ensures
      var s := Stop(Fixture(cb), ["arg1", "arg2"]);
      s.result == Success(Some(StopCall(cb, s.state, ["arg1", "arg2"])))
  {
  }

  /** Two stops record 5 and then 9.5. */
  lemma StopTwice(cb: CallbackId)
    ensures Create(Some("TheTimer"), [1.0, 5.0, 9.5, 20.5], Some(cb)).Success?
    ensures Stop(Fixture(cb), []).state.stoppedAt == Some(5.0)
    ensures Stop(Stop(Fixture(cb), []).state, []).state.stoppedAt == Some(9.5)
  {
  }

  /** The `start` doc example: started at 10, stopped at 20, restarted at 30
      with the stop time cleared. */
  lemma RestartClearsStop()
    ensures Create(None, [10.0, 20.0, 30.0], None).Success?
    ensures
      var t := Create(None, [10.0, 20.0, 30.0], None).value;
      && t.startedAt == 10.0
      && Stop(t, []).state.stoppedAt == Some(20.0)
      && Start(Stop(t, []).state).state.startedAt == 30.0
      && Start(Stop(t, []).state).state.stoppedAt == None
  {
  }

  /** The class doc example: a callback that reads `elapsed` off the timer
      it is handed sees 8.1234 after the first stop and 29.789 after the
      second, without consuming clock readings. */
  lemma CallbackReadsElapsed(cb: CallbackId)
    ensures Create(Some("MyTimer"), [1.0, 9.1234, 30.789], Some(cb)).Success?
    ensures
      var t := Create(Some("MyTimer"), [1.0, 9.1234, 30.789], Some(cb)).value;
      var first := Stop(t, ["load finished at"]);
      var second := Stop(first.state, ["parse finished at"]);
      && first.result.Success? && first.result.value.Some?
      && Elapsed(first.result.value.value.timer).result == Success(8.1234)
      && second.result.Success? && second.result.value.Some?
      && Elapsed(second.result.value.value.timer).result == Success(29.789)
  {
  }

  /** The `time` doc example: a timer over a clock that always reads 5
      (construction takes the first reading) gives 5. */
  lemma TimeGivesReading()
    ensures Create(None, [5.0, 5.0], None).Success?
    ensures Time(Create(None, [5.0, 5.0], None).value).result == Success(5.0)
  {
  }
}

=== FILE: wrappers.dfy ===
/** Failure-carrying shapes shared by the dispatch registry and the timer. */
module Wrappers {

  /** A value that may be absent (Python's `None`). */
  datatype Option<+T> = None | Some(value: T)

  /** Either what a call returned or the exception it raised. */
  datatype Result<+R, +E> = Success(value: R) | Failure(error: E)

  /** A call on a mutable Python object: the state the object is left in,
      together with what the call returned or raised. Keeping both halves
      lets a contract say that a failed call changed nothing. */
  datatype Step<+S, +R, +E> = Step(state: S, result: Result<R, E>)
}
